=== FILE: README.md ===
# ChatKit starter: session endpoint and math re-render scheduler, in Dafny

This project models the two pieces of decision logic in a small web front end that embeds a hosted chat widget.

**The session endpoint** (`app/api/chatkit/session/route.ts`) is modelled as total functions over strings and options:

- reading the `chatkit_session_id` value out of a `Cookie` request header (`getCookieValue`);
- writing the `Set-Cookie` text that issues a fresh anonymous user id (`serializeSessionCookie`);
- choosing the workflow id: `workflow.id`, then `workflowId`, then the environment default, with `??` precedence and an empty result treated as missing;
- reusing the cookie's user id or minting a new one (`resolveUserId`);
- attaching the cookie to a response (`withCookie`);
- the status mapping of `POST`: 500 without an API key, 400 without a workflow id, otherwise 200 or the upstream status.

The JavaScript built-ins this logic relies on are modelled concretely, with their ECMAScript behaviour:

- `String.prototype.trim` (the full WhiteSpace and LineTerminator set);
- `split` on one character, and `Array.prototype.join`;
- `encodeURIComponent` (UTF-8 bytes as `%XX`, and the unreserved set kept as is);
- the decimal rendering of a number.

**The render scheduler** (`app/App.tsx`) is modelled as an event-driven state machine:

- a lazily loaded renderer, guarded by a `cancelled` flag;
- a `MutationObserver` callback that calls `scheduleRender` at most once per batch, and only when a record's target lies inside the wrapper;
- the `rafId` debounce, which cancels the pending animation frame before requesting a new one;
- an initial pass when the observer is set up;
- a teardown that disconnects the observer and cancels the pending frame.

The browser's animation-frame queue is the set of handles requested and neither run nor cancelled. Handles are positive and never reused. Each call of the renderer is recorded in a trace of passes.

Modules:

| file | module | contents |
|---|---|---|
| wrappers.dfy | Wrappers | `Option` and `Coalesce` (the `??` operator) |
| js_string.dfy | JsString | trim, indexOf, split, join |
| number_format.dfy | NumberFormat | decimal rendering of a natural number |
| uri_encoding.dfy | UriEncoding | `encodeURIComponent` |
| session_cookie.dfy | SessionCookie | `getCookieValue`, `serializeSessionCookie` and their round trip |
| session_route.dfy | SessionRoute | `POST`, `resolveUserId`, `withCookie`, `json`, workflow-id resolution |
| render_scheduler.dfy | RenderScheduler | the mount/mutation/frame/unmount state machine and its invariant |

The response-end callback of `App.tsx` does nothing; rendering is left to the mutation observer.

## Model

| member | source | states |
|---|---|---|
| JsString.Trim | app/api/chatkit/session/route.ts:102 | the trimmed text has no JS whitespace at either end and is no longer than the input |
| JsString.TrimIsWhitespaceStrippedInfix | app/api/chatkit/session/route.ts:102 | trim removes only whitespace: the result is an infix with whitespace before and after it |
| Wrappers.Coalesce | app/api/chatkit/session/route.ts:24-26 | no contract of its own: the `??` operator; ResolveWorkflowId's `FirstPresent` ensures state the precedence it yields |
| JsString.TrimIdempotent | app/api/chatkit/session/route.ts:102 | trimming twice equals trimming once |
| JsString.IndexOf | app/api/chatkit/session/route.ts:101 | None exactly when the character is absent; otherwise its first occurrence |
| JsString.Join | app/api/chatkit/session/route.ts:116 | no contract of its own: `Array.prototype.join`; Split states that joining its parts restores the text, and SplitJoin that split inverts join |
| JsString.Split | app/api/chatkit/session/route.ts:100-101 | splitting on one character gives at least one part, no part holds the separator, and joining the parts with it restores the text |
| JsString.SplitJoin | app/api/chatkit/session/route.ts:100-102 | splitting the join of separator-free parts gives those parts back (split inverts join) |
| JsString.SplitHead | app/api/chatkit/session/route.ts:101-102 | the first part is the text before the first separator, and the others join back to the text after it |
| NumberFormat.ToDecimal | app/api/chatkit/session/route.ts:111 | the rendering of a number is digits only, without a leading zero, and denotes that number |
| UriEncoding.EncodeUriComponent | app/api/chatkit/session/route.ts:109 | the encoding holds only unreserved characters and `%`; text made only of unreserved characters is left unchanged |
| SessionCookie.PartValue | app/api/chatkit/session/route.ts:101-102 | a part matches iff it has a `=` and the trimmed text before the first `=` is the name; the value is everything after that `=`, trimmed, later `=` kept |
| SessionCookie.PartWithoutEqualsNeverMatches | app/api/chatkit/session/route.ts:101-102 | a part without `=` never matches |
| SessionCookie.FirstPartValue | app/api/chatkit/session/route.ts:100-104 | no contract of its own: the loop over the parts; FirstPartValueNone and FirstPartValueFirst state what it returns |
| SessionCookie.FirstPartValueNone | app/api/chatkit/session/route.ts:100-104 | the loop over the parts finds nothing iff no part has the key |
| SessionCookie.FirstPartValueFirst | app/api/chatkit/session/route.ts:100-102 | the loop returns the value of the first part with the key |
| SessionCookie.GetCookieValue | app/api/chatkit/session/route.ts:98-99 | a missing or empty header reads as None |
| SessionCookie.GetCookieValueFirstMatch | app/api/chatkit/session/route.ts:98-104 | in a non-empty header the first `;`-part with the key decides; later duplicates are ignored |
| SessionCookie.GetCookieValueNone | app/api/chatkit/session/route.ts:98-104 | the result is None iff the header is missing or empty, or no part has the key |
| SessionCookie.ReadPair | app/api/chatkit/session/route.ts:100-102 | a lone `name=value` reads back as the trimmed value, `=` inside the value included |
| SessionCookie.ReadLeadingPair | app/api/chatkit/session/route.ts:100-102 | a leading `name=value;` wins over anything after it |
| SessionCookie.MaxAgeNumeral | app/api/chatkit/session/route.ts:13 | thirty days in seconds renders as the numeral `2592000` used in the Max-Age attribute |
| SessionCookie.PairMatchesName | app/api/chatkit/session/route.ts:109 | the issued pair matches the session cookie name and carries the encoded value |
| SessionCookie.SerializeSessionCookie | app/api/chatkit/session/route.ts:107-117 | cut at its `;`s, the text is the encoded pair, then `Path=/`, `Max-Age=2592000`, `HttpOnly`, `SameSite=Lax`, each after one space, then `Secure` iff production |
| SessionCookie.SerializedNonEmpty | app/api/chatkit/session/route.ts:107-117 | the issued text is never empty, so it is always attached |
| SessionCookie.PairReadsBack | app/api/chatkit/session/route.ts:107-109 | round trip: the pair the browser returns reads back as the encoded value, never decoded |
| SessionCookie.SerializedReadsBack | app/api/chatkit/session/route.ts:107-117 | the whole `Set-Cookie` text, attributes included, reads back as the encoded value |
| SessionRoute.ResolveWorkflowId | app/api/chatkit/session/route.ts:23-26 | the first present source among `workflow.id`, `workflowId` and the env default is chosen; an empty string counts as present; an empty result becomes None |
| SessionRoute.WorkflowRefIdWins | app/api/chatkit/session/route.ts:23-26 | a present `workflow.id` decides alone, whatever the env default |
| SessionRoute.EmptyWorkflowRefIdShadows | app/api/chatkit/session/route.ts:23-30 | an empty `workflow.id` shadows a non-empty `workflowId` and env default, so the id is None |
| SessionRoute.EnvDefaultOnlyWithoutBodyIds | app/api/chatkit/session/route.ts:23-26 | the env default is used when the body names no workflow, and has no influence when it does |
| SessionRoute.FileUploadEnabled | app/api/chatkit/session/route.ts:45 | file upload is on iff the body sets it to true; it defaults to off |
| SessionRoute.ResolveUserId | app/api/chatkit/session/route.ts:85-96 | a non-empty cookie value is reused and no cookie is issued; otherwise the fresh id is used and exactly its serialised session cookie (all attributes) is issued, which is non-empty and reads back as the id's encoding |
| SessionRoute.Json | app/api/chatkit/session/route.ts:71-76 | the response carries the given status and payload, and only the Content-Type header, so no Set-Cookie |
| SessionRoute.WithCookie | app/api/chatkit/session/route.ts:78-83 | a missing or empty cookie leaves the response unchanged; otherwise status, payload and headers are kept and exactly one Set-Cookie with the cookie is appended |
| SessionRoute.MakeCall | app/api/chatkit/session/route.ts:33-48 | no contract of its own: the upstream request; ForwardsToUpstream states what is sent |
| SessionRoute.ReplyResponse | app/api/chatkit/session/route.ts:51-68 | a failed reply answers with the upstream status, its error (or the status text when it has none) and the whole reply as details; an accepted one answers 200 with the reply's client secret and expiry; no cookie is attached yet |
| SessionRoute.Post | app/api/chatkit/session/route.ts:15-69 | the upstream is asked exactly when the key is set and a workflow id resolves, for that id at the sessions URL; at most one Set-Cookie is sent |
| SessionRoute.MissingKeyAnswers500 | app/api/chatkit/session/route.ts:16-19 | without an API key the answer is 500, with no upstream call and no Set-Cookie, whatever the request |
| SessionRoute.MissingWorkflowAnswers400 | app/api/chatkit/session/route.ts:28-30 | with a key but no workflow id the answer is 400 with no upstream call; the cookie is issued only to a new user |
| SessionRoute.ForwardsToUpstream | app/api/chatkit/session/route.ts:32-68 | with a key and a workflow id, the session is requested for that workflow and user, with the bearer key and the file-upload flag; the answer is 200 with the reply's client secret and expiry, or the upstream status with its error and the reply as details |
| SessionRoute.CookieIssuedOnlyForNewUsers | app/api/chatkit/session/route.ts:89-95 | past the key check, exactly one Set-Cookie is sent iff the request had no usable session cookie |
| SessionRoute.StatusMapping | app/api/chatkit/session/route.ts:15-69 | the status is 500 without a key, 400 without a workflow id, otherwise 200 or the upstream status |
| SessionRoute.FirstVisitIssuesCookie | app/api/chatkit/session/route.ts:89-95 | any request without a usable session cookie (none, only other cookies, or an empty value) is made for the fresh id and answered with that id's full serialised Set-Cookie as its last header |
| SessionRoute.ReturningVisitKeepsId | app/api/chatkit/session/route.ts:89-90 | for a non-empty id of unreserved characters (a UUID, or a non-empty base-36 random string), a request that echoes the issued pair keeps the same user id, and no new cookie is issued |
| RenderScheduler.SchedulesFor | app/App.tsx:72-81 | one observer callback schedules at most once, and once iff some record's target is inside the root |
| RenderScheduler.ObserverCallback | app/App.tsx:74-80 | the loop with `break` schedules as often as SchedulesFor says and stops right after the first record inside the root |
| RenderScheduler.AtMostOnePending | app/App.tsx:62-70 | under the invariant at most one animation frame is pending |
| RenderScheduler.ScheduleRender | app/App.tsx:63-70 | a new request cancels the pending frame: afterwards only the new, never-used handle is pending, and the invariant holds |
| RenderScheduler.Mount | app/App.tsx:25-91 | mounting with the wrapper connects the observer and queues exactly one initial frame; without the wrapper no observer is set up and nothing is queued; nothing renders yet |
| RenderScheduler.Step | app/App.tsx:25-111 | each event only extends the trace: by at most one pass for the loader, at most one per queued frame for an animation frame, none otherwise; the widget callbacks change nothing |
| RenderScheduler.StepKeepsValid | app/App.tsx:25-97 | every event (loader, mutation batch, frame, widget callbacks, unmount) preserves the scheduler invariant |
| RenderScheduler.RunKeepsValid | app/App.tsx:25-97 | any sequence of events preserves the invariant |
| RenderScheduler.AtMostOnePendingFrameEver | app/App.tsx:62-70 | after mounting and any events, at most one animation frame is pending |
| RenderScheduler.FrameRendersAtMostOnce | app/App.tsx:65-69 | a frame renders once if one was pending and the renderer is loaded; otherwise the pass is dropped, not queued |
| RenderScheduler.MutationBatchSchedulesAtMostOnce | app/App.tsx:72-81 | a batch replaces the pending frame iff the observer is connected and a record is inside the root; otherwise nothing changes; it never renders by itself |
| RenderScheduler.LoaderCompletion | app/App.tsx:28-46 | after cleanup the loader changes nothing; otherwise it installs the renderer and renders the wrapper once if it exists |
| RenderScheduler.UnmountCancelsPending | app/App.tsx:93-96 | unmount disconnects the observer, cancels the pending frame and sets `cancelled` |
| RenderScheduler.NothingRendersWhenCancelled | app/App.tsx:48-50 | once cancelled, no sequence of events renders again |
| RenderScheduler.NoRenderAfterUnmount | app/App.tsx:93-96 | nothing renders after unmount, whatever follows |
| RenderScheduler.RendersBoundedByFrames | app/App.tsx:99-111 | the trace only grows, and by at most one pass per animation frame or loader completion; widget actions, response ends and mutations never render |
| RenderScheduler.BurstLeavesOneFrame | app/App.tsx:63-81 | any burst of batches touching the root leaves exactly one frame pending and renders nothing |
| RenderScheduler.BurstThenFrameRendersOnce | app/App.tsx:62-81 | coalescing: a burst of touching batches followed by one frame renders exactly once |

## Left out

- The upstream `fetch`, JSON parsing of request and reply (`safeParseJson`), and `Response`/`Headers` construction are I/O. The parsed body, the upstream reply and its status are inputs. A reply that fails to parse is the reply with every field missing.
- The request fields `workflow.id`, `workflowId` and `chatkit_configuration.file_upload.enabled` are taken at their declared TypeScript types (string or boolean, or missing). The parsed body is cast without checks, so a number such as `{"workflow":{"id":0}}` would shadow the later sources and answer 400, and a non-boolean `enabled` would be forwarded as is; the model does not cover such bodies.
- A rejected `fetch` (a network failure) makes `POST` throw, with no response and no cookie. That path is outside the model: SessionRoute.StatusMapping and SessionRoute.ForwardsToUpstream speak only of a reply that arrived.
- The reply fields `error`, `client_secret` and `expires_after` are arbitrary JSON in the code. They are modelled as optional strings, and `details` as the whole reply record.
- `crypto.randomUUID` and `Math.random` are nondeterministic. The fresh id is an input (`freshId`), standing for either branch.
- `process.env` values are parameters (the `Env` record). `NODE_ENV` matters only through `IsProduction`.
- The request body's `scope.user_id` is read by no code path and is not modelled.
- `Headers` lower-casing of header names, the `OpenAI-Beta` and `Content-Type` request headers, and the `runtime = "edge"` export are not modelled.
- UriEncoding.EncodeUriComponent: a Dafny `char` is a Unicode scalar value, so lone UTF-16 surrogates are not modelled. On those, `encodeURIComponent` throws.
- The renderer library's work (`renderMathInElement`, its delimiters and ignored tags) is external. Each call is one entry of the pass trace.
- `MutationObserver`, `requestAnimationFrame` and `cancelAnimationFrame` are events and state in the model. `root.contains` is the `insideRoot` set of a batch.
- RenderScheduler.Step: a trace may contain several `LoaderResolved` events, although a promise settles once. Each one is treated as a completion.
- React StrictMode's double-invoked effects and the colour-scheme hooks are not modelled.
- The development-only `console` logging in the widget callbacks has no effect on the model.
- `components/ViewportFix.tsx`, `app/layout.tsx` and `types/katex-auto-render.d.ts` are viewport I/O, markup and type declarations. They are not part of this model.

=== FILE: js_string.dfy ===
/**
 * The few `String` and `Array` built-ins the session endpoint relies on, with
 * ECMAScript semantics: `trim`, `split` on a one-character separator and
 * `join`, with the first position of a character, where `split` cuts.
 */
module JsString {
  import opened Wrappers

  /** The WhiteSpace and LineTerminator code points of ECMAScript, the set `String.prototype.trim` strips. */
  predicate IsJsWhitespace(c: char) {
    || c == '\t' || c == '\U{000B}' || c == '\U{000C}' || c == ' '
    || c == '\U{00A0}' || c == '\U{FEFF}' || c == '\U{1680}'
    || ('\U{2000}' <= c <= '\U{200A}')
    || c == '\U{202F}' || c == '\U{205F}' || c == '\U{3000}'
    || c == '\n' || c == '\r' || c == '\U{2028}' || c == '\U{2029}'
  }

  predicate AllWhitespace(s: string) {
    forall i :: 0 <= i < |s| ==> IsJsWhitespace(s[i])
  }

  /** Neither the first nor the last character of `s` is whitespace. */
  predicate Trimmed(s: string) {
    s == [] || (!IsJsWhitespace(s[0]) && !IsJsWhitespace(s[|s| - 1]))
  }

  /** Drops the leading whitespace of `s`. */
  function TrimStart(s: string): (r: string)
    ensures |r| <= |s| && r == s[|s| - |r|..]
    ensures AllWhitespace(s[..|s| - |r|])
    ensures r == [] || !IsJsWhitespace(r[0])
  {
    if |s| > 0 && IsJsWhitespace(s[0]) then
      var r := TrimStart(s[1..]);
      assert s[..|s| - |r|] == [s[0]] + s[1..][..|s| - 1 - |r|];
      r
    else s
  }

  /** Drops the trailing whitespace of `s`. */
  function TrimEnd(s: string): (r: string)
    ensures |r| <= |s| && r == s[..|r|]
    ensures AllWhitespace(s[|r|..])
    ensures r == [] || !IsJsWhitespace(r[|r| - 1])
  {
    if |s| > 0 && IsJsWhitespace(s[|s| - 1]) then
      var r := TrimEnd(s[..|s| - 1]);
      assert s[|r|..] == s[..|s| - 1][|r|..] + [s[|s| - 1]];
      r
    else s
  }

  /** `s.trim()`: the text with its leading and trailing whitespace removed. */
  function Trim(s: string): (r: string)
    ensures Trimmed(r)
    ensures |r| <= |s|
  {
    var t := TrimStart(s);
    var r := TrimEnd(t);
    assert r == [] || !IsJsWhitespace(r[0]) by {
      if r != [] { assert r[0] == t[0]; }
    }
    r
  }

  /**
   * Reference reading of `trim`: the result is an infix of `s` that neither
   * starts nor ends with whitespace, everything cut off on either side being
   * whitespace.
   */
  lemma TrimIsWhitespaceStrippedInfix(s: string)
    ensures exists i, j :: 0 <= i <= j <= |s| && Trim(s) == s[i..j]
                           && AllWhitespace(s[..i]) && AllWhitespace(s[j..])
  {
    var t := TrimStart(s);
    var r := TrimEnd(t);
    var i := |s| - |t|;
    assert r == s[i..i + |r|];
    assert s[i + |r|..] == t[|r|..];
  }

  /** Trimming text that has no whitespace at either end changes nothing. */
  lemma TrimOfTrimmed(s: string)
    requires Trimmed(s)
    ensures Trim(s) == s
  {
    assert TrimStart(s) == s;
    assert TrimEnd(s) == s;
  }

  /** `trim` is idempotent. */
  lemma TrimIdempotent(s: string)
    ensures Trim(Trim(s)) == Trim(s)
  {
    TrimOfTrimmed(Trim(s));
  }

  /** The position of the first `c` in `s`, None when there is none (`indexOf` returning -1). */
  function IndexOf(s: string, c: char): (r: Option<nat>)
    ensures r.None? <==> c !in s
    ensures r.Some? ==> r.value < |s| && s[r.value] == c && c !in s[..r.value]
  {
    if |s| == 0 then None
    else if s[0] == c then Some(0)
    else
      match IndexOf(s[1..], c)
      case None => None
      case Some(k) =>
        assert s[..k + 1] == [s[0]] + s[1..][..k];
        Some(k + 1)
  }

  /** The first occurrence is the one with no earlier occurrence. */
  lemma IndexOfAt(s: string, c: char, k: nat)
    requires k < |s| && s[k] == c && c !in s[..k]
    ensures IndexOf(s, c) == Some(k)
  {
    assert forall j :: 0 <= j < k ==> s[..k][j] == s[j];
  }

  /** `parts.join(sep)`: the parts with `sep` between neighbours; the empty array joins to "". */
  function Join(parts: seq<string>, sep: string): string {
    if |parts| == 0 then ""
    else if |parts| == 1 then parts[0]
    else parts[0] + sep + Join(parts[1..], sep)
  }

  /** Each part with one space in front. */
  function Spaced(parts: seq<string>): (r: seq<string>)
    ensures |r| == |parts|
    ensures forall i :: 0 <= i < |r| ==> r[i] == " " + parts[i]
  {
    if |parts| == 0 then [] else [" " + parts[0]] + Spaced(parts[1..])
  }

  /** Joining with `"; "` is joining with `";"` parts that carry a leading space. */
  lemma {:induction false} JoinSpaced(parts: seq<string>)
    requires |parts| >= 1
    ensures Join(Spaced(parts), ";") == " " + Join(parts, "; ")
  {
    if |parts| > 1 {
      JoinSpaced(parts[1..]);
      assert "; " == ";" + " ";
    }
  }

  lemma SeparatorSplits(a: string, b: string)
    ensures a + "; " + b == a + ";" + (" " + b)
  {
    assert "; " == ";" + " ";
  }

  /** Joining with `"; "` keeps the first part and puts `";"` before each later part's space. */
  lemma JoinSemicolonSpace(parts: seq<string>)
    requires |parts| >= 2
    ensures Join(parts, "; ") == Join([parts[0]] + Spaced(parts[1..]), ";")
  {
    var q := [parts[0]] + Spaced(parts[1..]);
    var rest := Join(parts[1..], "; ");
    JoinSpaced(parts[1..]);
    assert q[1..] == Spaced(parts[1..]);
    assert Join(q, ";") == parts[0] + ";" + (" " + rest);
    assert Join(parts, "; ") == parts[0] + "; " + rest;
    SeparatorSplits(parts[0], rest);
  }

  /**
   * `s.split(d)` for a one-character separator: the maximal runs of `s`
   * between occurrences of `d`. There is always at least one part, and
   * joining the parts back with `d` restores `s`.
   */
  function Split(s: string, d: char): (parts: seq<string>)
    ensures |parts| >= 1
    ensures forall i :: 0 <= i < |parts| ==> d !in parts[i]
    ensures Join(parts, [d]) == s
    decreases |s|
  {
    match IndexOf(s, d)
    case None => [s]
    case Some(k) =>
      var rest := Split(s[k + 1..], d);
      assert s == s[..k] + [d] + s[k + 1..];
      [s[..k]] + rest
  }

  /** Splitting a text that holds no separator yields the text alone. */
  lemma SplitWithout(s: string, d: char)
    requires d !in s
    ensures Split(s, d) == [s]
  {
  }

  /** The first separator cuts off the first part; the rest is split on its own. */
  lemma SplitAtFirst(a: string, b: string, d: char)
    requires d !in a
    ensures Split(a + [d] + b, d) == [a] + Split(b, d)
  {
    var s := a + [d] + b;
    assert s[|a|] == d;
    assert s[..|a|] == a;
    assert s[|a| + 1..] == b;
  }

  /** Split inverts Join: parts free of the separator come back unchanged. */
  lemma {:induction false} SplitJoin(parts: seq<string>, d: char)
    requires |parts| >= 1
    requires forall i :: 0 <= i < |parts| ==> d !in parts[i]
    ensures Split(Join(parts, [d]), d) == parts
  {
    if |parts| == 1 {
      SplitWithout(parts[0], d);
    } else {
      SplitJoin(parts[1..], d);
      SplitAtFirst(parts[0], Join(parts[1..], [d]), d);
    }
  }

  /**
   * The first part of a split is the text before the first separator, and
   * the remaining parts joined back are exactly the text after it: this is
   * what `const [k, ...v] = s.split(d); v.join(d)` recovers.
   */
  lemma SplitHead(s: string, d: char)
    ensures IndexOf(s, d).None? ==> Split(s, d) == [s]
    ensures IndexOf(s, d).Some? ==>
              var k := IndexOf(s, d).value;
              |Split(s, d)| >= 2 && Split(s, d)[0] == s[..k] && Join(Split(s, d)[1..], [d]) == s[k + 1..]
  {
    match IndexOf(s, d)
    case None =>
    case Some(k) =>
      assert Split(s, d)[1..] == Split(s[k + 1..], d);
  }
}

=== FILE: number_format.dfy ===
/**
 * `String(n)` for a non-negative integer, as a template literal `${n}`
 * renders it: the shortest decimal numeral, with no leading zero.
 */
module NumberFormat {

  predicate IsDigit(c: char) {
    '0' <= c <= '9'
  }

  predicate IsDigits(s: string) {
    forall i :: 0 <= i < |s| ==> IsDigit(s[i])
  }

  function DigitChar(d: nat): (c: char)
    requires d < 10
    ensures IsDigit(c)
  {
    ('0' as int + d) as char
  }

  function DigitValue(c: char): nat
    requires IsDigit(c)
  {
    c as int - '0' as int
  }

  /** The number a numeral denotes, most significant digit first (the reading direction of the inverse). */
  function DecimalValue(s: string): nat
    requires IsDigits(s)
  {
    if |s| == 0 then 0 else 10 * DecimalValue(s[..|s| - 1]) + DigitValue(s[|s| - 1])
  }

  /** The decimal numeral of `n`: digits only, no leading zero, and reading it back gives `n`. */
  function ToDecimal(n: nat): (r: string)
    ensures |r| >= 1 && IsDigits(r)
    ensures |r| > 1 ==> r[0] != '0'
    ensures DecimalValue(r) == n
  {
    if n < 10 then [DigitChar(n)]
    else
      var prefix := ToDecimal(n / 10);
      var r := prefix + [DigitChar(n % 10)];
      assert r[..|r| - 1] == prefix;
      r
  }
}

=== FILE: render_scheduler.dfy ===
/**
 * The math re-render scheduler of the page component (app/App.tsx) as an
 * event-driven state machine. Two effects run at mount: one loads the
 * renderer lazily, guarded by a `cancelled` flag; the other watches DOM
 * mutations and coalesces them into at most one pending animation frame,
 * whose callback renders the wrapper if the renderer has loaded. Unmount
 * runs both cleanups.
 *
 * The browser's animation-frame queue is modelled as the set of handles
 * requested by the component and neither run nor cancelled; handles are
 * positive and never reused. The renderer itself is opaque: each call is
 * recorded in a trace.
 */
module RenderScheduler {
  import opened Wrappers

  /** A DOM node, by identity. */
  type Node = nat

  /** A mutation record; only its target matters, and it may have none. */
  datatype Mutation = Mutation(target: Option<Node>)

  /** One call of the renderer on the wrapper: right after loading, or from an animation frame. */
  datatype Pass = LoaderPass | FramePass

  datatype State = State(
    wrapper: bool,           // the wrapper element exists (`wrapRef.current` non-null)
    observed: bool,          // the observer effect got past its wrapper check
    disconnected: bool,      // `observer.disconnect()` ran
    rafId: nat,              // the effect's `rafId` variable, 0 before the first request
    pendingFrames: set<nat>, // frame handles requested, neither run nor cancelled
    nextHandle: nat,         // the handle `requestAnimationFrame` returns next
    rendererLoaded: bool,    // `katexRenderRef.current` is set
    cancelled: bool,         // the loader effect's `cancelled`
    renders: seq<Pass>)      // every renderer call so far, in order

  datatype Event =
    | LoaderResolved                                       // the lazy import settled
    | MutationBatch(mutations: seq<Mutation>, insideRoot: set<Node>) // one observer callback; `insideRoot` is what `root.contains` accepts
    | AnimationFrame                                       // the browser runs the queued frame callbacks
    | WidgetAction                                         // the widget's action callback
    | ResponseEnd                                          // the widget's response-end callback
    | Unmount                                              // both effect cleanups

  /** The observer is connected. */
  predicate Observing(s: State) {
    s.observed && !s.disconnected
  }

  /** The invariant the scheduler keeps. */
  predicate Valid(s: State) {
    && s.nextHandle >= 1
    && s.rafId < s.nextHandle
    && s.pendingFrames <= {s.rafId}
    && 0 !in s.pendingFrames
    && (!Observing(s) ==> s.pendingFrames == {})
    && (s.disconnected ==> s.observed && s.cancelled)
    && (s.cancelled ==> !Observing(s))
  }

  /**
   * `scheduleRender()`: cancel the frame `rafId` names (if any) and request a
   * new one. From a valid, observing state the new request replaces the
   * pending frame: afterwards only the new, never-used handle is pending.
   */
  function ScheduleRender(s: State): (r: State)
    ensures Valid(s) && Observing(s) ==>
              && Valid(r)
              && r.pendingFrames == {r.rafId}
              && r.rafId !in s.pendingFrames
              && r.renders == s.renders
  {
    var kept := if s.rafId != 0 then s.pendingFrames - {s.rafId} else s.pendingFrames;
    s.(rafId := s.nextHandle, pendingFrames := kept + {s.nextHandle}, nextHandle := s.nextHandle + 1)
  }

  /** `root.contains(m.target)` for a record that has a target. */
  predicate TouchesRoot(m: Mutation, insideRoot: set<Node>) {
    m.target.Some? && m.target.value in insideRoot
  }

  /**
   * How many times one observer callback calls `scheduleRender`: the loop
   * stops at the first record inside the root, so at most once, and once
   * exactly when some record is inside the root.
   */
  function SchedulesFor(ms: seq<Mutation>, insideRoot: set<Node>): (n: nat)
    ensures n <= 1
    ensures n == 1 <==> exists i :: 0 <= i < |ms| && TouchesRoot(ms[i], insideRoot)
  {
    if |ms| == 0 then 0
    else if TouchesRoot(ms[0], insideRoot) then 1
    else
      var n := SchedulesFor(ms[1..], insideRoot);
      assert forall i :: 1 <= i < |ms| ==> ms[i] == ms[1..][i - 1];
      n
  }

  /**
   * The observer callback as the loop it is: scan the records, schedule on
   * the first one inside the root and break. It calls `scheduleRender`
   * exactly as often as SchedulesFor says, and stops at the first hit.
   */
  method ObserverCallback(ms: seq<Mutation>, insideRoot: set<Node>) returns (calls: nat, scanned: nat)
    ensures calls == SchedulesFor(ms, insideRoot)
    ensures scanned <= |ms|
    ensures calls == 1 ==> 1 <= scanned && TouchesRoot(ms[scanned - 1], insideRoot)
    ensures calls == 1 ==> forall j :: 0 <= j < scanned - 1 ==> !TouchesRoot(ms[j], insideRoot)
    ensures calls == 0 ==> scanned == |ms|
  {
    calls := 0;
    scanned := 0;
    while scanned < |ms|
      invariant scanned <= |ms|
      invariant calls == 0
      invariant forall j :: 0 <= j < scanned ==> !TouchesRoot(ms[j], insideRoot)
    {
      var m := ms[scanned];
      scanned := scanned + 1;
      if TouchesRoot(m, insideRoot) {
        calls := calls + 1;
        break;
      }
    }
  }

  /** `n` frame callbacks rendering the wrapper. */
  function FramePasses(n: nat): (r: seq<Pass>)
    ensures |r| == n
    ensures forall i :: 0 <= i < n ==> r[i] == FramePass
  {
    seq(n, _ => FramePass)
  }

  /**
   * Mounting: the loader is started (not yet settled); the observer is set
   * up only when the wrapper exists, and then it schedules one initial pass.
   * Nothing is rendered yet.
   */
  function Mount(wrapper: bool): (r: State)
    ensures Valid(r)
    ensures r.renders == [] && !r.rendererLoaded && !r.cancelled
    ensures wrapper ==> Observing(r) && r.pendingFrames == {r.rafId} && r.rafId != 0
    ensures !wrapper ==> !Observing(r) && r.pendingFrames == {}
  {
    var s := State(wrapper, wrapper, false, 0, {}, 1, false, false, []);
    if wrapper then ScheduleRender(s) else s
  }

  /**
   * One event. The trace of passes only grows: by at most one pass for a
   * loader completion, by at most one per queued frame for an animation
   * frame, and not at all otherwise; the widget callbacks change nothing.
   */
  function Step(s: State, e: Event): (r: State)
    ensures s.renders <= r.renders
    ensures |r.renders| <= |s.renders| + (if e.LoaderResolved? then 1 else if e.AnimationFrame? then |s.pendingFrames| else 0)
    ensures e.WidgetAction? || e.ResponseEnd? ==> r == s
  {
    match e
    case LoaderResolved =>
      if s.cancelled then s
      else
        var loaded := s.(rendererLoaded := true);
        if s.wrapper then loaded.(renders := loaded.renders + [LoaderPass]) else loaded
    case MutationBatch(ms, insideRoot) =>
      if Observing(s) && SchedulesFor(ms, insideRoot) == 1 then ScheduleRender(s) else s
    case AnimationFrame =>
      // every queued callback renders if the renderer is there; none is kept for later
      s.(pendingFrames := {},
         renders := s.renders + (if s.rendererLoaded then FramePasses(|s.pendingFrames|) else []))
    case WidgetAction => s
    case ResponseEnd => s
    case Unmount =>
      var s1 := s.(cancelled := true);
      if s.observed then
        s1.(disconnected := true,
            pendingFrames := if s.rafId != 0 then s.pendingFrames - {s.rafId} else s.pendingFrames)
      else s1
  }

  function Run(s: State, events: seq<Event>): State
    decreases |events|
  {
    if |events| == 0 then s else Run(Step(s, events[0]), events[1..])
  }

  // ---------------------------------------------------------------------------
  // Properties
  // ---------------------------------------------------------------------------

  /** Under the invariant at most one animation frame is pending. */
  lemma AtMostOnePending(s: State)
    requires Valid(s)
    ensures |s.pendingFrames| <= 1
  {
    if s.pendingFrames != {} {
      assert s.pendingFrames == {s.rafId};
    }
  }

  /** Every event keeps the invariant. */
  lemma StepKeepsValid(s: State, e: Event)
    requires Valid(s)
    ensures Valid(Step(s, e))
  {
  }

  lemma {:induction false} RunKeepsValid(s: State, events: seq<Event>)
    requires Valid(s)
    ensures Valid(Run(s, events))
    decreases |events|
  {
    if |events| > 0 {
      StepKeepsValid(s, events[0]);
      RunKeepsValid(Step(s, events[0]), events[1..]);
    }
  }

  /** Whatever happens after mounting, at most one animation frame is ever pending. */
  lemma AtMostOnePendingFrameEver(wrapper: bool, events: seq<Event>)
    ensures |Run(Mount(wrapper), events).pendingFrames| <= 1
  {
    RunKeepsValid(Mount(wrapper), events);
    AtMostOnePending(Run(Mount(wrapper), events));
  }

  /**
   * An animation frame renders the wrapper once if a frame was pending and
   * the renderer has loaded; a pass whose renderer is missing is dropped,
   * not kept for later.
   */
  lemma FrameRendersAtMostOnce(s: State)
    requires Valid(s)
    ensures var t := Step(s, AnimationFrame);
            && t.pendingFrames == {}
            && t.renders == s.renders + (if s.rendererLoaded && s.pendingFrames != {} then [FramePass] else [])
  {
    AtMostOnePending(s);
    if s.pendingFrames != {} {
      assert |s.pendingFrames| == 1;
    }
  }

  /**
   * A mutation batch schedules a fresh frame, replacing any pending one,
   * exactly when the observer is connected and some record lies inside the
   * root; otherwise nothing changes. It never renders by itself.
   */
  lemma MutationBatchSchedulesAtMostOnce(s: State, ms: seq<Mutation>, insideRoot: set<Node>)
    requires Valid(s)
    ensures var t := Step(s, MutationBatch(ms, insideRoot));
            && t.renders == s.renders
            && (Observing(s) && (exists i :: 0 <= i < |ms| && TouchesRoot(ms[i], insideRoot)) ==>
                  t.pendingFrames == {t.rafId} && t.rafId == s.nextHandle)
            && (!(Observing(s) && exists i :: 0 <= i < |ms| && TouchesRoot(ms[i], insideRoot)) ==> t == s)
  {
  }

  /**
   * The loader installs the renderer and applies it once to the wrapper,
   * unless cleanup already set `cancelled`, in which case nothing happens.
   */
  lemma LoaderCompletion(s: State)
    ensures s.cancelled ==> Step(s, LoaderResolved) == s
    ensures !s.cancelled ==> Step(s, LoaderResolved).rendererLoaded
    ensures !s.cancelled ==> Step(s, LoaderResolved).renders == s.renders + (if s.wrapper then [LoaderPass] else [])
  {
  }

  /** Unmounting disconnects the observer and cancels the pending frame. */
  lemma UnmountCancelsPending(s: State)
    requires Valid(s)
    ensures Valid(Step(s, Unmount))
    ensures Step(s, Unmount).pendingFrames == {}
    ensures !Observing(Step(s, Unmount)) && Step(s, Unmount).cancelled
    ensures Step(s, Unmount).renders == s.renders
  {
  }

  /** Once cancelled, no event renders again. */
  lemma {:induction false} NothingRendersWhenCancelled(s: State, events: seq<Event>)
    requires Valid(s) && s.cancelled
    ensures Run(s, events).renders == s.renders
    decreases |events|
  {
    if |events| > 0 {
      var t := Step(s, events[0]);
      assert t.renders == s.renders;
      StepKeepsValid(s, events[0]);
      NothingRendersWhenCancelled(t, events[1..]);
    }
  }

  /** No render happens after unmount, whatever follows. */
  lemma NoRenderAfterUnmount(s: State, events: seq<Event>)
    requires Valid(s)
    ensures Run(s, [Unmount] + events).renders == s.renders
  {
    UnmountCancelsPending(s);
    assert ([Unmount] + events)[1..] == events;
    NothingRendersWhenCancelled(Step(s, Unmount), events);
  }

  /** How many events of a trace can render: frames and loader completions. */
  function RenderingEvents(events: seq<Event>): nat {
    if |events| == 0 then 0
    else (if events[0].AnimationFrame? || events[0].LoaderResolved? then 1 else 0) + RenderingEvents(events[1..])
  }

  /**
   * Rendering is driven only by animation frames and the loader, one pass
   * each at most: mutation batches, widget actions and response ends never
   * render by themselves.
   */
  lemma {:induction false} RendersBoundedByFrames(s: State, events: seq<Event>)
    requires Valid(s)
    ensures s.renders <= Run(s, events).renders
    ensures |Run(s, events).renders| <= |s.renders| + RenderingEvents(events)
    decreases |events|
  {
    if |events| > 0 {
      var t := Step(s, events[0]);
      if events[0].AnimationFrame? {
        FrameRendersAtMostOnce(s);
      }
      assert s.renders <= t.renders;
      StepKeepsValid(s, events[0]);
      RendersBoundedByFrames(t, events[1..]);
    }
  }

  /** Every batch of the burst has a record inside the root. */
  predicate TouchingBurst(events: seq<Event>) {
    forall i :: 0 <= i < |events| ==>
      events[i].MutationBatch? && exists j :: 0 <= j < |events[i].mutations| && TouchesRoot(events[i].mutations[j], events[i].insideRoot)
  }

  /** A burst of touching batches leaves exactly one frame pending and renders nothing. */
  lemma {:induction false} BurstLeavesOneFrame(s: State, events: seq<Event>)
    requires Valid(s) && Observing(s) && TouchingBurst(events) && |events| >= 1
    ensures Valid(Run(s, events)) && Observing(Run(s, events))
    ensures |Run(s, events).pendingFrames| == 1
    ensures Run(s, events).renders == s.renders
    ensures Run(s, events).rendererLoaded == s.rendererLoaded
    decreases |events|
  {
    var t := Step(s, events[0]);
    MutationBatchSchedulesAtMostOnce(s, events[0].mutations, events[0].insideRoot);
    if |events| > 1 {
      assert TouchingBurst(events[1..]) by {
        forall i | 0 <= i < |events| - 1 ensures events[1..][i] == events[i + 1] { }
      }
      BurstLeavesOneFrame(t, events[1..]);
    }
  }

  lemma {:induction false} RunAppend(s: State, a: seq<Event>, b: seq<Event>)
    ensures Run(s, a + b) == Run(Run(s, a), b)
    decreases |a|
  {
    if |a| > 0 {
      assert (a + b)[1..] == a[1..] + b;
      RunAppend(Step(s, a[0]), a[1..], b);
    } else {
      assert a + b == b;
    }
  }

  /**
   * Coalescing: however many touching mutation batches arrive before the
   * next animation frame, that frame renders exactly once (once the
   * renderer has loaded).
   */
  lemma BurstThenFrameRendersOnce(s: State, burst: seq<Event>)
    requires Valid(s) && Observing(s) && s.rendererLoaded && TouchingBurst(burst) && |burst| >= 1
    ensures Run(s, burst + [AnimationFrame]).renders == s.renders + [FramePass]
  {
    BurstLeavesOneFrame(s, burst);
    RunAppend(s, burst, [AnimationFrame]);
    var t := Run(s, burst);
    FrameRendersAtMostOnce(t);
    assert Run(t, [AnimationFrame]) == Step(t, AnimationFrame);
  }
}

=== FILE: session_cookie.dfy ===
/**
 * The session cookie of the session endpoint (app/api/chatkit/session/route.ts):
 * reading a named value out of a `Cookie` request header, and writing the
 * `Set-Cookie` value that issues a fresh anonymous user id.
 */
module SessionCookie {
  import opened Wrappers
  import opened JsString
  import NumberFormat
  import UriEncoding

  const SessionCookieName: string := "chatkit_session_id"

  /** Thirty days, in seconds. */
  const SessionCookieMaxAge: nat := 60 * 60 * 24 * 30

  /** `${SESSION_COOKIE_MAX_AGE}`: the numeral the template renders (MaxAgeNumeral proves it). */
  const SessionCookieMaxAgeText: string := "2592000"

  // ---------------------------------------------------------------------------
  // Reading: getCookieValue
  // ---------------------------------------------------------------------------

  /**
   * Reference reading of one `;`-separated part: it matches `name` when it
   * holds a `=` and the text before the FIRST `=`, trimmed, is `name`.
   */
  predicate KeyIs(part: string, name: string) {
    match IndexOf(part, '=')
    case None => false
    case Some(k) => Trim(part[..k]) == name
  }

  /** Reference value of a part: everything after its first `=`, trimmed; later `=` are kept. */
  function ValueAfterKey(part: string): string
    requires '=' in part
  {
    var k := IndexOf(part, '=').value;
    Trim(part[k + 1..])
  }

  /**
   * What the loop body does with one part: `const [k, ...v] = part.split("=")`,
   * a match when `k.trim() === name` and `v` is not empty, the value being
   * `v.join("=").trim()`. It agrees with the reference reading above.
   */
  function PartValue(part: string, name: string): (r: Option<string>)
    ensures r.Some? <==> KeyIs(part, name)
    ensures r.Some? ==> '=' in part && r.value == ValueAfterKey(part)
  {
    SplitHead(part, '=');
    var kv := Split(part, '=');
    var k := kv[0];
    var v := kv[1..];
    if Trim(k) == name && |v| > 0 then Some(Trim(Join(v, "="))) else None
  }

  /** Part `i` is the first part whose key is `name`. */
  predicate IsFirstMatch(parts: seq<string>, i: int, name: string) {
    && 0 <= i < |parts|
    && KeyIs(parts[i], name)
    && forall j :: 0 <= j < i ==> !KeyIs(parts[j], name)
  }

  /** The loop over the parts: the value of the first matching part, None when none matches. */
  function FirstPartValue(parts: seq<string>, name: string): Option<string> {
    if |parts| == 0 then None
    else if PartValue(parts[0], name).Some? then PartValue(parts[0], name)
    else FirstPartValue(parts[1..], name)
  }

  /** The loop stops at a first part that matches. */
  lemma FirstPartWins(parts: seq<string>, name: string)
    requires |parts| >= 1 && PartValue(parts[0], name).Some?
    ensures FirstPartValue(parts, name) == PartValue(parts[0], name)
  {
  }

  /** The loop finds nothing exactly when no part has the key. */
  lemma {:induction false} FirstPartValueNone(parts: seq<string>, name: string)
    ensures FirstPartValue(parts, name).None? <==> forall i :: 0 <= i < |parts| ==> !KeyIs(parts[i], name)
  {
    if |parts| > 0 && PartValue(parts[0], name).None? {
      FirstPartValueNone(parts[1..], name);
      assert forall i :: 1 <= i < |parts| ==> parts[i] == parts[1..][i - 1];
    }
  }

  /** The loop returns the value of the first part that has the key; later parts are never looked at. */
  lemma {:induction false} FirstPartValueFirst(parts: seq<string>, name: string, i: int)
    requires IsFirstMatch(parts, i, name)
    ensures FirstPartValue(parts, name) == Some(ValueAfterKey(parts[i]))
  {
    if i > 0 {
      assert IsFirstMatch(parts[1..], i - 1, name) by {
        assert forall j :: 0 <= j < i - 1 ==> parts[1..][j] == parts[j + 1];
      }
      FirstPartValueFirst(parts[1..], name, i - 1);
    }
  }

  /** The parts `getCookieValue` loops over. */
  function CookieParts(header: string): seq<string> {
    Split(header, ';')
  }

  /** `getCookieValue(header, name)`: None for a missing or empty header, else the first match. */
  function GetCookieValue(header: Option<string>, name: string): (r: Option<string>)
    ensures header.None? || header == Some("") ==> r.None?
  {
    if header.None? || header.value == "" then None
    else FirstPartValue(CookieParts(header.value), name)
  }

  /**
   * In a non-empty header, the value read is that of the first part whose
   * trimmed key is `name`; later duplicates are ignored.
   */
  lemma GetCookieValueFirstMatch(header: string, name: string, i: int)
    requires header != ""
    requires IsFirstMatch(CookieParts(header), i, name)
    ensures GetCookieValue(Some(header), name) == Some(ValueAfterKey(CookieParts(header)[i]))
  {
    FirstPartValueFirst(CookieParts(header), name, i);
  }

  /** The result is None exactly when the header is missing or empty or no part has the key. */
  lemma GetCookieValueNone(header: Option<string>, name: string)
    ensures GetCookieValue(header, name).None? <==>
              header.None? || header.value == ""
              || forall i :: 0 <= i < |CookieParts(header.value)| ==> !KeyIs(CookieParts(header.value)[i], name)
  {
    if header.Some? && header.value != "" {
      FirstPartValueNone(CookieParts(header.value), name);
    }
  }

  /** The part `name=value` matches `name`, and its value is `value` trimmed. */
  lemma PairPart(name: string, value: string)
    requires '=' !in name && ';' !in name && ';' !in value
    requires Trimmed(name)
    ensures ';' !in name + "=" + value
    ensures PartValue(name + "=" + value, name) == Some(Trim(value))
  {
    var part := name + "=" + value;
    assert part == name + ['='] + value;
    forall i | 0 <= i < |part| ensures part[i] != ';' {
      if i < |name| { assert part[i] == name[i]; }
      else if i > |name| { assert part[i] == value[i - |name| - 1]; }
    }
    assert part[..|name|] == name;
    assert part[|name| + 1..] == value;
    IndexOfAt(part, '=', |name|);
    TrimOfTrimmed(name);
    assert KeyIs(part, name);
  }

  /** A header without `;` is a single part, read as that part alone. */
  lemma ReadSinglePart(part: string, name: string)
    requires part != "" && ';' !in part
    ensures GetCookieValue(Some(part), name) == PartValue(part, name)
  {
    SplitWithout(part, ';');
    assert CookieParts(part) == [part];
    assert [part][1..] == [];
    assert FirstPartValue([], name) == None;
  }

  /** A lone `name=value` pair reads back as the trimmed value, any `=` inside the value included. */
  lemma ReadPair(name: string, value: string)
    requires '=' !in name && ';' !in name && ';' !in value
    requires Trimmed(name)
    ensures GetCookieValue(Some(name + "=" + value), name) == Some(Trim(value))
  {
    PairPart(name, value);
    ReadSinglePart(name + "=" + value, name);
  }

  /** A leading `name=value` pair wins over whatever follows the first `;`, later duplicates included. */
  lemma ReadLeadingPair(name: string, value: string, rest: string)
    requires '=' !in name && ';' !in name && ';' !in value
    requires Trimmed(name)
    ensures GetCookieValue(Some(name + "=" + value + ";" + rest), name) == Some(Trim(value))
  {
    var part := name + "=" + value;
    PairPart(name, value);
    assert name + "=" + value + ";" + rest == part + [';'] + rest;
    SplitAtFirst(part, rest, ';');
    var header := name + "=" + value + ";" + rest;
    var parts := [part] + Split(rest, ';');
    assert parts[0] == part;
    FirstPartWins(parts, name);
    assert header != "";
    assert GetCookieValue(Some(header), name) == FirstPartValue(CookieParts(header), name);
  }

  /** A part without any `=` never matches, whatever its text. */
  lemma PartWithoutEqualsNeverMatches(part: string, name: string)
    requires '=' !in part
    ensures PartValue(part, name).None?
  {
  }

  // ---------------------------------------------------------------------------
  // Writing: serializeSessionCookie
  // ---------------------------------------------------------------------------

  /** `chatkit_session_id=<encodeURIComponent(value)>`, the pair a browser sends back. */
  function CookiePair(value: string): string {
    SessionCookieName + "=" + UriEncoding.EncodeUriComponent(value)
  }

  /** The attributes every issued session cookie carries after its pair. */
  function FixedAttributes(): seq<string> {
    ["Path=/", "Max-Age=" + SessionCookieMaxAgeText, "HttpOnly", "SameSite=Lax"]
  }

  /** The attributes after the pair: the fixed ones, then `Secure` in production. */
  function TrailingAttributes(production: bool): seq<string> {
    FixedAttributes() + (if production then ["Secure"] else [])
  }

  function SessionCookieAttributes(value: string, production: bool): seq<string> {
    [CookiePair(value)] + TrailingAttributes(production)
  }

  /** The numeral in the Max-Age attribute is the decimal rendering of thirty days in seconds. */
  lemma MaxAgeNumeral()
    ensures NumberFormat.ToDecimal(SessionCookieMaxAge) == SessionCookieMaxAgeText
  {
    assert SessionCookieMaxAge == 2592000;
    assert NumberFormat.ToDecimal(2) == "2";
    assert NumberFormat.ToDecimal(25) == "25";
    assert NumberFormat.ToDecimal(259) == "259";
    assert NumberFormat.ToDecimal(2592) == "2592";
    assert NumberFormat.ToDecimal(25920) == "25920";
    assert NumberFormat.ToDecimal(259200) == "259200";
  }

  /**
   * The `;`-separated parts of the issued `Set-Cookie` text after the pair:
   * each attribute behind the space of its `"; "` separator.
   */
  function IssuedAttributeParts(production: bool): seq<string> {
    Spaced(TrailingAttributes(production))
  }

  /** No attribute holds a `;`, so each stays one part of the issued text. */
  lemma AttributePartsPlain(production: bool)
    ensures forall i :: 0 <= i < |IssuedAttributeParts(production)| ==> ';' !in IssuedAttributeParts(production)[i]
  {
    var attrs := TrailingAttributes(production);
    assert forall i :: 0 <= i < |attrs| ==> ';' !in attrs[i];
  }

  lemma NameIsPlain()
    ensures '=' !in SessionCookieName && ';' !in SessionCookieName && Trimmed(SessionCookieName)
  {
  }

  /** What `encodeURIComponent` produces holds no `;`, no `=` and no whitespace at its ends. */
  lemma EncodedIsPlain(value: string)
    ensures var enc := UriEncoding.EncodeUriComponent(value);
            ';' !in enc && '=' !in enc && Trimmed(enc)
  {
    var enc := UriEncoding.EncodeUriComponent(value);
    assert forall i :: 0 <= i < |enc| ==> enc[i] != ';' && enc[i] != '=' && !IsJsWhitespace(enc[i]) by {
      forall i | 0 <= i < |enc| ensures enc[i] != ';' && enc[i] != '=' && !IsJsWhitespace(enc[i]) {
        assert UriEncoding.IsUriSafe(enc[i]);
      }
    }
  }

  /** The pair holds no `;`, so it stays one part of a header. */
  lemma PairHasNoSemicolon(value: string)
    ensures ';' !in CookiePair(value)
  {
    EncodedIsPlain(value);
    var enc := UriEncoding.EncodeUriComponent(value);
    var pair := CookiePair(value);
    assert pair == SessionCookieName + ("=" + enc);
    assert ';' !in "=" + enc;
  }

  /** The pair matches the session cookie name and carries the encoded value. */
  lemma PairMatchesName(value: string)
    ensures PartValue(CookiePair(value), SessionCookieName) == Some(UriEncoding.EncodeUriComponent(value))
  {
    var enc := UriEncoding.EncodeUriComponent(value);
    EncodedIsPlain(value);
    NameIsPlain();
    TrimOfTrimmed(enc);
    PairPart(SessionCookieName, enc);
  }

  /**
   * `serializeSessionCookie(value)`: cut at its `;`s, the issued text is the
   * encoded pair followed by the fixed path, a thirty-day lifetime, HttpOnly
   * and SameSite=Lax, and `Secure` exactly in production.
   */
  function SerializeSessionCookie(value: string, production: bool): (r: string)
    ensures Split(r, ';') == [CookiePair(value)] + IssuedAttributeParts(production)
  {
    var attrs := SessionCookieAttributes(value, production);
    AttributePartsPlain(production);
    assert attrs[1..] == TrailingAttributes(production);
    JoinSemicolonSpace(attrs);
    var parts := [CookiePair(value)] + IssuedAttributeParts(production);
    assert [attrs[0]] + Spaced(attrs[1..]) == parts;
    assert Join(attrs, "; ") == Join(parts, [';']);
    PairHasNoSemicolon(value);
    assert forall i :: 0 <= i < |parts| ==> ';' !in parts[i];
    SplitJoin(parts, ';');
    Join(attrs, "; ")
  }

  /** The issued text is never empty, so `withCookie` always attaches it. */
  lemma SerializedNonEmpty(value: string, production: bool)
    ensures SerializeSessionCookie(value, production) != ""
  {
    var r := SerializeSessionCookie(value, production);
    if r == "" {
      SplitWithout(r, ';');
    }
  }

  /**
   * Round trip: the pair a browser returns reads back, under the session
   * cookie name, as the ENCODED value (the endpoint never decodes it).
   */
  lemma PairReadsBack(value: string)
    ensures GetCookieValue(Some(CookiePair(value)), SessionCookieName) == Some(UriEncoding.EncodeUriComponent(value))
  {
    PairHasNoSemicolon(value);
    PairMatchesName(value);
    SplitWithout(CookiePair(value), ';');
    FirstPartWins([CookiePair(value)], SessionCookieName);
  }

  /** The whole `Set-Cookie` text, attributes included, reads back the same way. */
  lemma SerializedReadsBack(value: string, production: bool)
    ensures GetCookieValue(Some(SerializeSessionCookie(value, production)), SessionCookieName)
            == Some(UriEncoding.EncodeUriComponent(value))
  {
    var r := SerializeSessionCookie(value, production);
    PairMatchesName(value);
    SerializedNonEmpty(value, production);
    FirstPartWins(CookieParts(r), SessionCookieName);
  }
}

=== FILE: session_route.dfy ===
/**
 * The `POST` handler of the session endpoint
 * (app/api/chatkit/session/route.ts) as a total function: environment
 * values, the parsed request, the freshly generated id and the upstream
 * reply are its inputs; the response and the upstream call it would make
 * are its outputs.
 */
module SessionRoute {
  import opened Wrappers
  import opened SessionCookie
  import UriEncoding
  import opened JsString

  // ---------------------------------------------------------------------------
  // Inputs and outputs
  // ---------------------------------------------------------------------------

  /** `{ id?: string | null }`, the `workflow` member of the request body. */
  datatype WorkflowField = WorkflowField(id: Option<string>)

  /**
   * The request body after `safeParseJson`; an empty or malformed body is
   * None. `fileUploadEnabled` is `chatkit_configuration.file_upload.enabled`.
   */
  datatype RequestBody = RequestBody(
    workflow: Option<WorkflowField>,
    workflowId: Option<string>,
    fileUploadEnabled: Option<bool>)

  datatype Request = Request(cookieHeader: Option<string>, body: Option<RequestBody>)

  /** The `process.env` values the handler reads. */
  datatype Env = Env(
    openaiApiKey: Option<string>,
    defaultWorkflowId: Option<string>,
    apiBase: Option<string>,
    nodeEnv: Option<string>)

  /** The upstream JSON body; a body that does not parse is `{}`, every field absent. */
  datatype ReplyData = ReplyData(error: Option<string>, clientSecret: Option<string>, expiresAfter: Option<string>)

  datatype UpstreamReply = UpstreamReply(ok: bool, status: int, statusText: string, data: ReplyData)

  /** The session-creation request sent upstream. */
  datatype SessionCall = SessionCall(
    url: string,
    authorization: string,
    workflowId: string,
    user: string,
    fileUploadEnabled: bool)

  datatype Header = Header(name: string, value: string)

  datatype Payload =
    | ErrorMessage(error: string)
    | UpstreamFailure(error: string, details: ReplyData)
    | SessionCreated(clientSecret: Option<string>, expiresAfter: Option<string>)

  datatype Response = Response(status: int, headers: seq<Header>, payload: Payload)

  /** The user id the request is made for, and the `Set-Cookie` value to issue, if any. */
  datatype Identity = Identity(userId: string, sessionCookie: Option<string>)

  /** The handler's response, and the upstream call it made (None on the early exits). */
  datatype Outcome = Outcome(response: Response, call: Option<SessionCall>)

  const DefaultChatkitBase: string := "https://api.openai.com"
  const MissingKeyMessage: string := "Missing OPENAI_API_KEY environment variable"
  const MissingWorkflowMessage: string := "Missing workflow id"

  /** JavaScript truthiness of a `string | null | undefined`: present and not empty. */
  predicate Truthy(x: Option<string>) {
    x.Some? && x.value != ""
  }

  predicate IsProduction(env: Env) {
    env.nodeEnv == Some("production")
  }

  // ---------------------------------------------------------------------------
  // Workflow id
  // ---------------------------------------------------------------------------

  /** `parsedBody?.workflow?.id`. */
  function BodyWorkflowRefId(body: Option<RequestBody>): Option<string> {
    if body.Some? && body.value.workflow.Some? then body.value.workflow.value.id else None
  }

  /** `parsedBody?.workflowId`. */
  function BodyWorkflowId(body: Option<RequestBody>): Option<string> {
    if body.Some? then body.value.workflowId else None
  }

  /** The three sources of a workflow id, in order of precedence. */
  function WorkflowSources(body: Option<RequestBody>, envDefault: Option<string>): seq<Option<string>> {
    [BodyWorkflowRefId(body), BodyWorkflowId(body), envDefault]
  }

  /** Source `i` is the first one that is present (not null or undefined). */
  predicate FirstPresent(sources: seq<Option<string>>, i: int) {
    0 <= i < |sources| && sources[i].Some? && forall j :: 0 <= j < i ==> sources[j].None?
  }

  /**
   * `(workflow?.id ?? workflowId ?? env default) || null`: the first present
   * source, an empty string counting as present, and an empty result
   * becoming None.
   */
  function ResolveWorkflowId(body: Option<RequestBody>, envDefault: Option<string>): (r: Option<string>)
    ensures r != Some("")
    ensures r.Some? ==> exists i :: FirstPresent(WorkflowSources(body, envDefault), i)
                                    && WorkflowSources(body, envDefault)[i] == r
    ensures r.None? ==> forall i :: FirstPresent(WorkflowSources(body, envDefault), i)
                                    ==> WorkflowSources(body, envDefault)[i] == Some("")
  {
    var chosen := Coalesce(Coalesce(BodyWorkflowRefId(body), BodyWorkflowId(body)), envDefault);
    var sources := WorkflowSources(body, envDefault);
    if chosen.Some? && chosen.value != "" then
      assert FirstPresent(sources, 0) || FirstPresent(sources, 1) || FirstPresent(sources, 2);
      chosen
    else
      assert forall i :: FirstPresent(sources, i) ==> i == 0 || i == 1 || i == 2;
      assert FirstPresent(sources, 0) ==> sources[0] == chosen;
      assert FirstPresent(sources, 1) ==> sources[1] == chosen;
      assert FirstPresent(sources, 2) ==> sources[2] == chosen;
      None
  }

  /** A present `workflow.id` decides alone: the other sources are never consulted. */
  lemma WorkflowRefIdWins(body: Option<RequestBody>, env1: Option<string>, env2: Option<string>, w: string)
    requires BodyWorkflowRefId(body) == Some(w)
    ensures ResolveWorkflowId(body, env1) == ResolveWorkflowId(body, env2)
    ensures ResolveWorkflowId(body, env1) == (if w == "" then None else Some(w))
  {
  }

  /**
   * An empty `workflow.id` shadows a non-empty `workflowId` and environment
   * default, because `??` only skips null and undefined: the id resolves
   * to None and the request is answered 400.
   */
  lemma EmptyWorkflowRefIdShadows(fieldId: string, envDefault: string)
    requires fieldId != "" && envDefault != ""
    ensures ResolveWorkflowId(Some(RequestBody(Some(WorkflowField(Some(""))), Some(fieldId), None)), Some(envDefault)).None?
  {
  }

  /** The environment default is used exactly when the body names no workflow at all. */
  lemma EnvDefaultOnlyWithoutBodyIds(body: Option<RequestBody>, envDefault: string)
    requires envDefault != ""
    ensures ResolveWorkflowId(body, Some(envDefault)) == Some(envDefault)
            <== BodyWorkflowRefId(body).None? && BodyWorkflowId(body).None?
    ensures BodyWorkflowRefId(body).Some? || BodyWorkflowId(body).Some? ==>
              ResolveWorkflowId(body, Some(envDefault)) == ResolveWorkflowId(body, None)
  {
  }

  /** `chatkit_configuration?.file_upload?.enabled ?? false`. */
  function FileUploadEnabled(body: Option<RequestBody>): (r: bool)
    ensures r <==> body.Some? && body.value.fileUploadEnabled == Some(true)
  {
    if body.Some? then body.value.fileUploadEnabled.GetOr(false) else false
  }

  // ---------------------------------------------------------------------------
  // User id and cookie
  // ---------------------------------------------------------------------------

  /**
   * `resolveUserId`: a non-empty session cookie value is reused and nothing
   * is issued; otherwise `freshId` (the random id) becomes the user id and
   * its serialised session cookie is issued, a cookie that reads back as the
   * encoded id.
   */
  function ResolveUserId(cookieHeader: Option<string>, freshId: string, production: bool): (r: Identity)
    ensures var existing := GetCookieValue(cookieHeader, SessionCookieName);
            && (r.sessionCookie.None? <==> Truthy(existing))
            && (Truthy(existing) ==> r.userId == existing.value)
            && (!Truthy(existing) ==> r.userId == freshId)
    ensures r.sessionCookie.Some? ==>
              && r.sessionCookie.value != ""
              && GetCookieValue(Some(r.sessionCookie.value), SessionCookieName) == Some(UriEncoding.EncodeUriComponent(freshId))
    ensures r.sessionCookie.Some? ==> r.sessionCookie.value == SerializeSessionCookie(freshId, production)
  {
    var existing := GetCookieValue(cookieHeader, SessionCookieName);
    if Truthy(existing) then Identity(existing.value, None)
    else
      SerializedReadsBack(freshId, production);
      SerializedNonEmpty(freshId, production);
      Identity(freshId, Some(SerializeSessionCookie(freshId, production)))
  }

  // ---------------------------------------------------------------------------
  // Responses
  // ---------------------------------------------------------------------------

  /** How many `Set-Cookie` headers a header list carries. */
  function SetCookieCount(headers: seq<Header>): nat {
    if |headers| == 0 then 0
    else (if headers[0].name == "Set-Cookie" then 1 else 0) + SetCookieCount(headers[1..])
  }

  lemma {:induction false} SetCookieCountAppend(headers: seq<Header>, h: Header)
    ensures SetCookieCount(headers + [h]) == SetCookieCount(headers) + (if h.name == "Set-Cookie" then 1 else 0)
  {
    if |headers| > 0 {
      assert (headers + [h])[1..] == headers[1..] + [h];
      SetCookieCountAppend(headers[1..], h);
    }
  }

  const ContentTypeJson: Header := Header("Content-Type", "application/json")

  /** `json(payload, status)`. */
  function Json(payload: Payload, status: int): (r: Response)
    ensures r.status == status && r.payload == payload
    ensures r.headers == [ContentTypeJson]
    ensures SetCookieCount(r.headers) == 0
  {
    assert [ContentTypeJson][1..] == [];
    Response(status, [ContentTypeJson], payload)
  }

  /**
   * `withCookie(res, cookie)`: a missing or empty cookie leaves the response
   * as it is; otherwise status and payload are kept, the headers are kept in
   * order, and exactly one `Set-Cookie` header carrying the cookie is added.
   */
  function WithCookie(res: Response, cookie: Option<string>): (r: Response)
    ensures !Truthy(cookie) ==> r == res
    ensures Truthy(cookie) ==>
              && r.status == res.status && r.payload == res.payload
              && |r.headers| == |res.headers| + 1
              && r.headers[..|res.headers|] == res.headers
              && r.headers[|res.headers|] == Header("Set-Cookie", cookie.value)
    ensures SetCookieCount(r.headers) == SetCookieCount(res.headers) + (if Truthy(cookie) then 1 else 0)
  {
    if !Truthy(cookie) then res
    else
      SetCookieCountAppend(res.headers, Header("Set-Cookie", cookie.value));
      Response(res.status, res.headers + [Header("Set-Cookie", cookie.value)], res.payload)
  }

  // ---------------------------------------------------------------------------
  // POST
  // ---------------------------------------------------------------------------

  /** `${apiBase}/v1/chatkit/sessions`, the base defaulting (through `??`) to the public API. */
  function SessionsUrl(env: Env): string {
    env.apiBase.GetOr(DefaultChatkitBase) + "/v1/chatkit/sessions"
  }

  /** The upstream call for a resolved workflow id and user. */
  function MakeCall(env: Env, key: string, workflowId: string, req: Request, userId: string): SessionCall {
    SessionCall(SessionsUrl(env), "Bearer " + key, workflowId, userId, FileUploadEnabled(req.body))
  }

  /**
   * The response built from the upstream reply: its error (or status text)
   * under the upstream status, or the session under 200; no cookie yet.
   */
  function ReplyResponse(reply: UpstreamReply): (r: Response)
    ensures r.status == (if reply.ok then 200 else reply.status)
    ensures r.payload.SessionCreated? <==> reply.ok
    ensures reply.ok ==> r.payload == SessionCreated(reply.data.clientSecret, reply.data.expiresAfter)
    ensures !reply.ok ==> r.payload == UpstreamFailure(reply.data.error.GetOr(reply.statusText), reply.data)
    ensures SetCookieCount(r.headers) == 0
  {
    if !reply.ok then Json(UpstreamFailure(reply.data.error.GetOr(reply.statusText), reply.data), reply.status)
    else Json(SessionCreated(reply.data.clientSecret, reply.data.expiresAfter), 200)
  }

  /**
   * `POST(request)`: the upstream is asked exactly when the key is set and a
   * workflow id resolves, for that id at the sessions URL; at most one
   * cookie is issued.
   */
  function Post(env: Env, req: Request, freshId: string, reply: UpstreamReply): (r: Outcome)
    ensures r.call.Some? <==> Truthy(env.openaiApiKey) && ResolveWorkflowId(req.body, env.defaultWorkflowId).Some?
    ensures r.call.Some? ==> r.call.value.workflowId == ResolveWorkflowId(req.body, env.defaultWorkflowId).value
                             && r.call.value.url == SessionsUrl(env)
    ensures SetCookieCount(r.response.headers) <= 1
  {
    if !Truthy(env.openaiApiKey) then
      Outcome(Json(ErrorMessage(MissingKeyMessage), 500), None)
    else
      var identity := ResolveUserId(req.cookieHeader, freshId, IsProduction(env));
      var workflowId := ResolveWorkflowId(req.body, env.defaultWorkflowId);
      if workflowId.None? then
        Outcome(WithCookie(Json(ErrorMessage(MissingWorkflowMessage), 400), identity.sessionCookie), None)
      else
        var call := MakeCall(env, env.openaiApiKey.value, workflowId.value, req, identity.userId);
        Outcome(WithCookie(ReplyResponse(reply), identity.sessionCookie), Some(call))
  }

  /** Whether the request already carries a usable session cookie. */
  predicate HasSessionCookie(req: Request) {
    Truthy(GetCookieValue(req.cookieHeader, SessionCookieName))
  }

  /**
   * A missing API key answers 500 before the body, the cookie or the
   * upstream is looked at: no call, no `Set-Cookie`, and the same response
   * whatever the request.
   */
  lemma MissingKeyAnswers500(env: Env, req: Request, freshId: string, reply: UpstreamReply,
                             req2: Request, freshId2: string, reply2: UpstreamReply)
    requires !Truthy(env.openaiApiKey)
    ensures Post(env, req, freshId, reply).response.status == 500
    ensures Post(env, req, freshId, reply).call.None?
    ensures SetCookieCount(Post(env, req, freshId, reply).response.headers) == 0
    ensures Post(env, req, freshId, reply) == Post(env, req2, freshId2, reply2)
  {
  }

  /**
   * With a key but no resolvable workflow id the answer is 400 and nothing
   * is sent upstream; a newly minted id still gets its cookie.
   */
  lemma MissingWorkflowAnswers400(env: Env, req: Request, freshId: string, reply: UpstreamReply)
    requires Truthy(env.openaiApiKey)
    requires ResolveWorkflowId(req.body, env.defaultWorkflowId).None?
    ensures Post(env, req, freshId, reply).response.status == 400
    ensures Post(env, req, freshId, reply).response.payload == ErrorMessage(MissingWorkflowMessage)
    ensures Post(env, req, freshId, reply).call.None?
    ensures SetCookieCount(Post(env, req, freshId, reply).response.headers) == (if HasSessionCookie(req) then 0 else 1)
  {
    CookieIssuedOnlyForNewUsers(env, req, freshId, reply);
  }

  /**
   * With a key and a workflow id the session is requested upstream for that
   * workflow and the resolved user, with file upload off unless the body
   * turns it on; the answer is 200 on success and the upstream status on
   * failure.
   */
  lemma ForwardsToUpstream(env: Env, req: Request, freshId: string, reply: UpstreamReply, w: string)
    requires Truthy(env.openaiApiKey)
    requires ResolveWorkflowId(req.body, env.defaultWorkflowId) == Some(w)
    ensures var out := Post(env, req, freshId, reply);
            && out.call.Some?
            && out.call.value.workflowId == w
            && out.call.value.user == ResolveUserId(req.cookieHeader, freshId, IsProduction(env)).userId
            && out.call.value.authorization == "Bearer " + env.openaiApiKey.value
            && out.call.value.fileUploadEnabled == (req.body.Some? && req.body.value.fileUploadEnabled == Some(true))
            && out.response.status == (if reply.ok then 200 else reply.status)
            && (reply.ok ==> out.response.payload == SessionCreated(reply.data.clientSecret, reply.data.expiresAfter))
            && (!reply.ok ==> out.response.payload == UpstreamFailure(reply.data.error.GetOr(reply.statusText), reply.data))
  {
  }

  /**
   * Past the key check, exactly one `Set-Cookie` is issued when the request
   * has no usable session cookie, and none when it has one.
   */
  lemma CookieIssuedOnlyForNewUsers(env: Env, req: Request, freshId: string, reply: UpstreamReply)
    requires Truthy(env.openaiApiKey)
    ensures SetCookieCount(Post(env, req, freshId, reply).response.headers) == (if HasSessionCookie(req) then 0 else 1)
  {
    var identity := ResolveUserId(req.cookieHeader, freshId, IsProduction(env));
    assert Truthy(identity.sessionCookie) <==> !HasSessionCookie(req);
  }

  /**
   * The whole status mapping: 500 without a key, 400 without a workflow id,
   * 200 for an accepted upstream reply, and the upstream status otherwise.
   */
  lemma StatusMapping(env: Env, req: Request, freshId: string, reply: UpstreamReply)
    ensures var status := Post(env, req, freshId, reply).response.status;
            && (status == 500 <==> !Truthy(env.openaiApiKey) || (ResolveWorkflowId(req.body, env.defaultWorkflowId).Some? && !reply.ok && reply.status == 500))
            && (!Truthy(env.openaiApiKey) ==> status == 500)
            && (Truthy(env.openaiApiKey) && ResolveWorkflowId(req.body, env.defaultWorkflowId).None? ==> status == 400)
            && (Truthy(env.openaiApiKey) && ResolveWorkflowId(req.body, env.defaultWorkflowId).Some? ==>
                  status == (if reply.ok then 200 else reply.status))
  {
  }

  /** An id made only of unreserved characters (a UUID, say) is its own encoding. */
  predicate UriSafeId(id: string) {
    id != "" && forall i :: 0 <= i < |id| ==> UriEncoding.IsUnreserved(id[i])
  }

  /**
   * A request without a usable session cookie (no `Cookie` header, only
   * other cookies, or an empty `chatkit_session_id=`) is made for the fresh
   * id and answered with that id's full session cookie as its last header.
   */
  lemma FirstVisitIssuesCookie(env: Env, req: Request, freshId: string, reply: UpstreamReply)
    requires Truthy(env.openaiApiKey) && ResolveWorkflowId(req.body, env.defaultWorkflowId).Some?
    requires !HasSessionCookie(req)
    ensures var out := Post(env, req, freshId, reply);
            && out.call.Some? && out.call.value.user == freshId
            && SetCookieCount(out.response.headers) == 1
            && out.response.headers[|out.response.headers| - 1]
               == Header("Set-Cookie", SerializeSessionCookie(freshId, IsProduction(env)))
  {
    CookieIssuedOnlyForNewUsers(env, req, freshId, reply);
  }

  /**
   * A browser that sends back the `name=value` part of that cookie is
   * recognised: the next request, whatever id would have been generated for
   * it, is made for the same user and issues no new cookie.
   */
  lemma ReturningVisitKeepsId(env: Env, body: Option<RequestBody>, freshId: string, nextId: string, reply: UpstreamReply)
    requires Truthy(env.openaiApiKey) && ResolveWorkflowId(body, env.defaultWorkflowId).Some?
    requires UriSafeId(freshId)
    ensures var echoed := Split(SerializeSessionCookie(freshId, IsProduction(env)), ';')[0];
            var out := Post(env, Request(Some(echoed), body), nextId, reply);
            && out.call.Some? && out.call.value.user == freshId
            && SetCookieCount(out.response.headers) == 0
  {
    var echoed := Split(SerializeSessionCookie(freshId, IsProduction(env)), ';')[0];
    assert echoed == CookiePair(freshId);
    PairReadsBack(freshId);
    assert UriEncoding.EncodeUriComponent(freshId) == freshId;
    assert HasSessionCookie(Request(Some(echoed), body));
    CookieIssuedOnlyForNewUsers(env, Request(Some(echoed), body), nextId, reply);
  }
}

=== FILE: uri_encoding.dfy ===
/**
 * `encodeURIComponent` (section 19.2.6.5 of ECMA-262): every character
 * outside the unreserved set is replaced by the `%XX` escapes of its UTF-8
 * bytes, hexadecimal digits in upper case.
 */
module UriEncoding {

  /** The characters `encodeURIComponent` leaves alone: letters, digits and `-_.!~*'()`. */
  predicate IsUnreserved(c: char) {
    || ('A' <= c <= 'Z') || ('a' <= c <= 'z') || ('0' <= c <= '9')
    || c == '-' || c == '_' || c == '.' || c == '!' || c == '~' || c == '*' || c == '\'' || c == '(' || c == ')'
  }

  /** A character that can appear in the output of `encodeURIComponent`. */
  predicate IsUriSafe(c: char) {
    IsUnreserved(c) || c == '%'
  }

  function HexDigit(n: nat): (c: char)
    requires n < 16
    ensures IsUnreserved(c)
  {
    if n < 10 then ('0' as int + n) as char else ('A' as int + n - 10) as char
  }

  /** The UTF-8 encoding of one Unicode scalar value. */
  function Utf8(c: char): (bytes: seq<nat>)
    ensures 1 <= |bytes| <= 4
    ensures forall i :: 0 <= i < |bytes| ==> bytes[i] < 256
    ensures |bytes| == 1 <==> c as int < 0x80
  {
    var cp := c as int;
    if cp < 0x80 then [cp]
    else if cp < 0x800 then [0xC0 + cp / 0x40, 0x80 + cp % 0x40]
    else if cp < 0x1_0000 then [0xE0 + cp / 0x1000, 0x80 + (cp / 0x40) % 0x40, 0x80 + cp % 0x40]
    else [0xF0 + cp / 0x4_0000, 0x80 + (cp / 0x1000) % 0x40, 0x80 + (cp / 0x40) % 0x40, 0x80 + cp % 0x40]
  }

  /** `%XX` for each byte. */
  function PercentEscapes(bytes: seq<nat>): (r: string)
    requires forall i :: 0 <= i < |bytes| ==> bytes[i] < 256
    ensures |r| == 3 * |bytes|
    ensures forall i :: 0 <= i < |r| ==> IsUriSafe(r[i])
  {
    if |bytes| == 0 then ""
    else ['%', HexDigit(bytes[0] / 16), HexDigit(bytes[0] % 16)] + PercentEscapes(bytes[1..])
  }

  function EncodeChar(c: char): (r: string)
    ensures IsUnreserved(c) ==> r == [c]
    ensures !IsUnreserved(c) ==> |r| >= 3 && r[0] == '%'
    ensures forall i :: 0 <= i < |r| ==> IsUriSafe(r[i])
  {
    if IsUnreserved(c) then [c] else PercentEscapes(Utf8(c))
  }

  /**
   * `encodeURIComponent(s)`: only unreserved characters and `%` come out, so
   * the result never holds a `;`, a `=` or whitespace; a text made only of
   * unreserved characters comes out unchanged.
   */
  function EncodeUriComponent(s: string): (r: string)
    ensures forall i :: 0 <= i < |r| ==> IsUriSafe(r[i])
    ensures (forall i :: 0 <= i < |s| ==> IsUnreserved(s[i])) ==> r == s
    ensures |r| >= |s|
  {
    if |s| == 0 then "" else EncodeChar(s[0]) + EncodeUriComponent(s[1..])
  }
}

=== FILE: wrappers.dfy ===
/** The optional-value datatype used for JavaScript's `null` / `undefined`. */
module Wrappers {

  datatype Option<+T> = None | Some(value: T) {

    /** Returns the value in Some, or `default` for None: JavaScript's `x ?? default`. */
    function GetOr(default: T): T {
      match this
      case Some(v) => v
      case None => default
    }
  }

  /** JavaScript's `a ?? b` on two nullable values: `a` unless it is nullish. */
  function Coalesce<T>(a: Option<T>, b: Option<T>): Option<T> {
    if a.Some? then a else b
  }
}
